=== FILE: README.md ===
# nativeinitializer: a Dafny model

This project models the core of `nativeinitializer`, a small Java library. The library picks the native library built for the current platform, makes it loadable, loads it, and then builds a dependent value once. The model covers five parts:

- **`DefaultNamingScheme`** (`default_naming_scheme.dfy`). The detected platform is the pair (`os.arch`, lower-cased `os.name`). If that pair is registered, the scheme maps it to `[relativePath] + os + "-" + arch`. Otherwise it throws `UnsupportedOperationException`. The scheme is an immutable record, and the detected properties are parameters (`None` models an unset property).
- **Loaders** (`native_loader_factory.dfy`). The closed datatype `Loader` has the cases `System | File | Resource | TempDirResource | Fallback`. `Load` runs a loader against an abstract filesystem `Env` and an oracle `Jvm`. The oracle supplies class-path resources, `System.loadLibrary`, `System.load`, UUIDs, temporary directories and stream chunk sizes. `Load` returns the new `Env`, an `Outcome` (`Ok`, an `Exception`, or an `Error`) and the list of non-fallback loaders it invoked.
- **`saveLibrary` and `toFile`**, in the same file. `saveLibrary` first creates the directory if needed. In a fixed directory whose destination already exists, it returns that destination (the fast path). Otherwise it writes the resource to a temporary file with a UUID name, then moves that file onto the destination in one step.
- **`fallbackTo`** and fallback chains (`native_loader.dfy`).
- **`NativeInitializer`** (`native_initializer.dfy`). A functional state machine over the fields `loader`, `initialized` and `value`. Its operations are `get` and `setNativeLoader`. `RunCalls` executes any sequence of calls.

Java `null` is modelled as `Option.None` in three places: the string arguments of the naming scheme, the detected system properties, and the factory's naming scheme. Null loaders are not modelled (see "## Left out"). Thrown exceptions are modelled as `Result.Failure`. Support modules: `wrappers.dfy`, `failures.dfy` (the Java throwables) and `environment.dfy` (filesystem and JVM oracle).

Some of the code's behaviour is easy to misread. The model follows the code as written:

- The determined name contains neither the library name nor a version.
- An empty set of supported platforms rejects every platform. It does not mean "accept all".
- `FallbackLoader` catches only `Exception`. An `Error` from the first loader, such as the `UnsatisfiedLinkError` that `System.loadLibrary` throws for a missing library, is not caught, so the second loader is never tried (`NativeLoader.MissingSystemLibraryDoesNotFallBack`).
- `load()` can return normally more than once. This happens when the supplier throws after a successful load (`NativeInitializer.LoadRepeatsAfterSupplierFailure`). Only the supplier's success is at most once.
- The factory calls `determineName(boolean, boolean)`. The `NamingScheme` interface in the source declares only `determineName()`. The model therefore treats the two-argument form as a function field of the factory's `NamingScheme` record. That function may throw.

## Model

| member | source | states |
|---|---|---|
| DefaultNamingScheme.NewScheme | src/main/java/com/github/foobar27/nativeinitializer/DefaultNamingScheme.java:27-41 | null libraryName gives NullPointerException, empty gives IllegalArgumentException, and no scheme is built; otherwise it stores the name, the normalised path and an empty platform set |
| DefaultNamingScheme.NewDefaultScheme | src/main/java/com/github/foobar27/nativeinitializer/DefaultNamingScheme.java:23-25 | behaves exactly like the two-argument constructor with relativePath "lib/", and a built scheme has relative path "lib/" |
| DefaultNamingScheme.NormalizePath | src/main/java/com/github/foobar27/nativeinitializer/DefaultNamingScheme.java:35-40 | null stays null; a non-null path ends in "/"; a path already ending in "/" is unchanged, any other gets exactly one "/" appended |
| DefaultNamingScheme.NormalizePathIdempotent | src/main/java/com/github/foobar27/nativeinitializer/DefaultNamingScheme.java:35-40 | normalising twice equals normalising once; the added slash is never doubled |
| DefaultNamingScheme.NewPlatform | src/main/java/com/github/foobar27/nativeinitializer/DefaultNamingScheme.java:75-84 | null architecture, then null osName, raise NullPointerException; otherwise both fields are stored as given |
| DefaultNamingScheme.PlatformEquals | src/main/java/com/github/foobar27/nativeinitializer/DefaultNamingScheme.java:91-99 | two platforms are equal exactly when architecture and osName are both equal |
| DefaultNamingScheme.AddSupportedPlatform | src/main/java/com/github/foobar27/nativeinitializer/DefaultNamingScheme.java:47-49 | the set gains exactly the given platform, stored as given, and the other fields are unchanged; null arguments raise NullPointerException |
| DefaultNamingScheme.RemoveSupportedPlatform | src/main/java/com/github/foobar27/nativeinitializer/DefaultNamingScheme.java:51-53 | the set loses exactly the given platform and the other fields are unchanged; null arguments raise NullPointerException |
| DefaultNamingScheme.DetermineName | src/main/java/com/github/foobar27/nativeinitializer/DefaultNamingScheme.java:55-69 | succeeds iff (arch, lower-cased os) is registered; unregistered gives UnsupportedOperationException, null os.name or os.arch gives NullPointerException; success is path prefix + os + "-" + arch |
| DefaultNamingScheme.LowerIdempotent | src/main/java/com/github/foobar27/nativeinitializer/DefaultNamingScheme.java:58 | lower-casing a lower-cased OS name changes nothing |
| DefaultNamingScheme.FreshSchemeRejectsEveryPlatform | src/main/java/com/github/foobar27/nativeinitializer/DefaultNamingScheme.java:56-62 | a newly built scheme has an empty set and rejects every detected platform |
| DefaultNamingScheme.LibraryNameIrrelevant | src/main/java/com/github/foobar27/nativeinitializer/DefaultNamingScheme.java:63-68 | the determined name and its failures do not depend on the library name |
| DefaultNamingScheme.AddSupportedPlatformIdempotent | src/main/java/com/github/foobar27/nativeinitializer/DefaultNamingScheme.java:47-49 | adding the same platform twice is adding it once |
| DefaultNamingScheme.AddedPlatformIsAccepted | src/main/java/com/github/foobar27/nativeinitializer/DefaultNamingScheme.java:57-68 | after adding (a, o), every detection (a, d) with lower(d) = o yields path + o + "-" + a |
| DefaultNamingScheme.RemovedPlatformIsRejected | src/main/java/com/github/foobar27/nativeinitializer/DefaultNamingScheme.java:51-61 | after removing (a, o), every detection (a, d) with lower(d) = o is rejected |
| DefaultNamingScheme.UpperCaseOsNameNeverMatches | src/main/java/com/github/foobar27/nativeinitializer/DefaultNamingScheme.java:47-60 | registering an OS name that is not lower case changes no answer of determineName |
| DefaultNamingScheme.ArchitectureIsCaseSensitive | src/main/java/com/github/foobar27/nativeinitializer/DefaultNamingScheme.java:57-60 | for every scheme and detection, the OS name's case never changes the answer, while an architecture whose platform (arch, lower-cased os) is not registered, even one differing only in case, is rejected |
| NativeLoaderFactory.NewFactory | src/main/java/com/github/foobar27/nativeinitializer/NativeLoaderFactory.java:29-34 | a null naming scheme raises NullPointerException; otherwise the factory keeps the scheme |
| NativeLoaderFactory.ReadCount | src/main/java/com/github/foobar27/nativeinitializer/NativeLoaderFactory.java:169-170 | a read before end of stream delivers between 1 and min(remaining, 16 KiB) bytes |
| NativeLoaderFactory.CopyFrom | src/main/java/com/github/foobar27/nativeinitializer/NativeLoaderFactory.java:168-172 | the copy loop from position pos writes exactly the rest of the stream, whatever chunk sizes reads deliver |
| NativeLoaderFactory.ToFile | src/main/java/com/github/foobar27/nativeinitializer/NativeLoaderFactory.java:166-175 | the file receives exactly the stream's bytes |
| NativeLoaderFactory.CreateDirectoryIfAbsent | src/main/java/com/github/foobar27/nativeinitializer/NativeLoaderFactory.java:184-186 | only the directory is added, and only when nothing exists at that path |
| NativeLoaderFactory.Extract | src/main/java/com/github/foobar27/nativeinitializer/NativeLoaderFactory.java:210-236 | missing resource gives IOException with the state unchanged; on success the destination holds the resource bytes, the temp file is gone, exit hooks gain the file iff deleteOnExit, other files are untouched and no file appears other than the destination and the temporary file; on any failure the destination's content is what it was |
| NativeLoaderFactory.SaveLibrary | src/main/java/com/github/foobar27/nativeinitializer/NativeLoaderFactory.java:177-237 | on success both names were determined, the result is dir/determineName(false, true), and it exists; only dir may be created; only the result may be registered for deletion; the only new files are the destination and the temporary file, and none appears when a name cannot be determined; a failed save never changes the destination's content, so no partial file appears under the final name |
| NativeLoaderFactory.SaveLibraryFastPath | src/main/java/com/github/foobar27/nativeinitializer/NativeLoaderFactory.java:188-207 | fixed directory with an existing destination: returns it, writes no file, and gives the same result for any resource store |
| NativeLoaderFactory.SaveLibraryExtracts | src/main/java/com/github/foobar27/nativeinitializer/NativeLoaderFactory.java:210-236 | otherwise, with a fresh temp name: the files are the old files with the destination set to the resource bytes, and nothing else changes |
| NativeLoaderFactory.SaveLibraryMissingResource | src/main/java/com/github/foobar27/nativeinitializer/NativeLoaderFactory.java:216-225 | a missing resource raises IOException; the only change is the possibly created directory |
| NativeLoaderFactory.SaveLibraryFixedIdempotent | src/main/java/com/github/foobar27/nativeinitializer/NativeLoaderFactory.java:187-207 | a second extraction into a fixed directory returns the first's result, changes nothing and does not depend on the store |
| NativeLoaderFactory.LoadExtracted | src/main/java/com/github/foobar27/nativeinitializer/NativeLoaderFactory.java:129-136 | a saveLibrary failure is thrown as an Exception; otherwise the linker gets the returned path and its content |
| NativeLoaderFactory.CreateTempDirectory | src/main/java/com/github/foobar27/nativeinitializer/NativeLoaderFactory.java:84-88 | the directory is the one the temporary-directory oracle names; exactly that directory is added and registered for deletion, and no file changes |
| NativeLoaderFactory.Load | src/main/java/com/github/foobar27/nativeinitializer/NativeLoaderFactory.java:150-163 | invoked loaders are a prefix of the leaves, each invoked at most once and in order; all but the last threw an Exception; the outcome is the last's; an early stop means it did not throw an Exception |
| NativeLoaderFactory.SystemLoader | src/main/java/com/github/foobar27/nativeinitializer/NativeLoaderFactory.java:44-46 | loading calls loadLibrary with the scheme's library name and changes no file |
| NativeLoaderFactory.SystemLoaderFor | src/main/java/com/github/foobar27/nativeinitializer/NativeLoaderFactory.java:52-66 | loading calls loadLibrary with the given name and changes no file |
| NativeLoaderFactory.FileLoader | src/main/java/com/github/foobar27/nativeinitializer/NativeLoaderFactory.java:68-82 | loading hands the path and its current content to the linker and changes no file |
| NativeLoaderFactory.ResourceLoaderFor | src/main/java/com/github/foobar27/nativeinitializer/NativeLoaderFactory.java:118-138 | loading changes the filesystem exactly as saveLibrary(dir, deleteOnExit) does, and its outcome is System.load of the saved file, or the exception saveLibrary threw |
| NativeLoaderFactory.ResourceLoader | src/main/java/com/github/foobar27/nativeinitializer/NativeLoaderFactory.java:114-116 | loading changes the filesystem exactly as saveLibrary(dir, deleteOnExit) does, and its outcome is System.load of the saved file, or the exception saveLibrary threw |
| NativeLoaderFactory.ResourceLoaderFixedDirectory | src/main/java/com/github/foobar27/nativeinitializer/NativeLoaderFactory.java:110-112 | loading changes the filesystem exactly as saveLibrary(dir, false) does, and its outcome is System.load of the saved file, or the exception saveLibrary threw |
| NativeLoaderFactory.ResourceLoaderTempDirectoryFor | src/main/java/com/github/foobar27/nativeinitializer/NativeLoaderFactory.java:94-108 | each load creates a new temporary directory, then saveLibrary runs there with deleteOnExit true; the filesystem and the outcome (System.load of the saved file, or saveLibrary's exception) are those of that extraction |
| NativeLoaderFactory.ResourceLoaderTempDirectory | src/main/java/com/github/foobar27/nativeinitializer/NativeLoaderFactory.java:90-92 | the same filesystem effect and outcome, with the scheme's library name as the directory prefix |
| NativeLoaderFactory.ResourceLibraryNameIsOnlyALabel | src/main/java/com/github/foobar27/nativeinitializer/NativeLoaderFactory.java:118-138 | two resource loaders that differ only in library name have the same effect and outcome |
| NativeLoaderFactory.TempDirectoryLoaderAlwaysExtracts | src/main/java/com/github/foobar27/nativeinitializer/NativeLoaderFactory.java:94-108 | with fresh names, the linker always gets the resource's bytes at the destination, whatever existed before |
| NativeLoader.FallbackTo | src/main/java/com/github/foobar27/nativeinitializer/NativeLoader.java:19-21 | yields a fallback whose first branch is the receiver and second the argument; its leaves are theirs, concatenated |
| NativeLoader.ChainLeaves | src/main/java/com/github/foobar27/nativeinitializer/NativeLoader.java:19-21 | a left-nested chain of plain loaders has exactly those loaders as leaves, in order |
| NativeLoader.FallbackFirstSucceeds | src/main/java/com/github/foobar27/nativeinitializer/NativeLoaderFactory.java:150-153 | if the first loader succeeds, the composite run is the first loader's run, and the second is never invoked |
| NativeLoader.FallbackFirstThrowsException | src/main/java/com/github/foobar27/nativeinitializer/NativeLoaderFactory.java:152-162 | if the first throws an Exception, the second runs on the resulting state and its outcome is the composite's |
| NativeLoader.FallbackFirstThrowsError | src/main/java/com/github/foobar27/nativeinitializer/NativeLoaderFactory.java:152-154 | an Error from the first loader propagates without invoking the second |
| NativeLoader.MissingSystemLibraryDoesNotFallBack | src/main/java/com/github/foobar27/nativeinitializer/NativeLoaderFactory.java:61-63 | when loadLibrary throws an Error, System(name).fallbackTo(b) surfaces it after one attempt |
| NativeLoader.ChainTriesInOrder | src/main/java/com/github/foobar27/nativeinitializer/NativeLoader.java:19-21 | a chain tries its members in order, each at most once; every member before the last one tried threw an Exception |
| NativeLoader.SucceedsIffSomeMemberSucceeds | src/main/java/com/github/foobar27/nativeinitializer/NativeLoaderFactory.java:150-163 | with no Error among the attempts, success iff some attempt succeeded; on failure every member was tried and the last member's Exception surfaces |
| NativeInitializer.New | src/main/java/com/github/foobar27/nativeinitializer/NativeInitializer.java:15-18 | a new initializer is uninitialized and holds the given loader |
| NativeInitializer.SetNativeLoader | src/main/java/com/github/foobar27/nativeinitializer/NativeInitializer.java:20-25 | once initialized, throws NativeLoaderAlreadyInitializedException; before that, replaces the loader and nothing else |
| NativeInitializer.Rethrown | src/main/java/com/github/foobar27/nativeinitializer/NativeInitializer.java:33-37 | an IOException from load is wrapped in NativeLoaderException; anything else passes through unchanged |
| NativeInitializer.Get | src/main/java/com/github/foobar27/nativeinitializer/NativeInitializer.java:27-49 | initialized: returns the stored value, invokes nothing; else load, then the supplier only if load returned; initialized iff both succeeded, caching and returning exactly the supplier's value; a load exception is rethrown (IOException wrapped), a supplier exception is rethrown as is; on failure the state is unchanged |
| NativeInitializer.InitializedNeverReverts | src/main/java/com/github/foobar27/nativeinitializer/NativeInitializer.java:29-48 | from an initialized state, any call sequence changes nothing, invokes nothing, and every get returns the stored value |
| NativeInitializer.SupplierSucceedsAtMostOnce | src/main/java/com/github/foobar27/nativeinitializer/NativeInitializer.java:38-41 | in any call sequence a successful supplier call is the last event, so it happens at most once and never from an initialized state |
| NativeInitializer.SuccessfulLoadThenSupplier | src/main/java/com/github/foobar27/nativeinitializer/NativeInitializer.java:33-38 | every load that returns normally is immediately followed by a supplier call |
| NativeInitializer.SuccessfulGetsAgree | src/main/java/com/github/foobar27/nativeinitializer/NativeInitializer.java:38-48 | all gets that return in a call sequence return the same value |
| NativeInitializer.FailedGetRetries | src/main/java/com/github/foobar27/nativeinitializer/NativeInitializer.java:33-40 | after a failed get, the next get invokes the loader again |
| NativeInitializer.SetLoaderThenGetUsesIt | src/main/java/com/github/foobar27/nativeinitializer/NativeInitializer.java:20-34 | before initialization, setNativeLoader succeeds and the next get loads with the new loader |
| NativeInitializer.LoadRepeatsAfterSupplierFailure | src/main/java/com/github/foobar27/nativeinitializer/NativeInitializer.java:33-41 | if the supplier throws after a successful load, the next get loads successfully a second time |

## Left out

- Concurrency. The `volatile` flag, the monitor and the double-checked locking in `NativeInitializer` are not modelled; only the sequential semantics of `get` and `setNativeLoader` are.
- The dynamic linker. `System.loadLibrary` and `System.load` are oracle functions of the `Jvm` record. `System.load` receives the path and the file's current content.
- Randomness. `UUID.randomUUID()` and `Files.createTempDirectory` are oracle functions of the filesystem state. Freshness of their names is a hypothesis of the lemmas that need it, not a precondition of the operations. With a non-fresh UUID name, the model does what the Java code would do: `FileOutputStream` truncates the colliding file, and moving a file onto itself does nothing.
- The atomicity of `ATOMIC_MOVE`. The move is one step of the model.
- Process-exit deletion. Only the registration (`deleteOnExit`) is recorded, in `Env.exitHooks`.
- Filesystem failures other than those the model raises. The model raises an error when opening the temporary file fails because the name is a directory or the parent is not a directory. It also raises one when a file is moved onto a directory. Permission errors, a missing parent for `createDirectory`, a failing `createTempDirectory`, read errors and full disks are not modelled.
- Path syntax. Paths are sequences of name components, and `resolve` appends one component.
- Logging calls and the `toString` labels of the loaders. They are diagnostics only.
- `Platform.hashCode` and `equals` against a non-`Platform` object. Set membership on the datatype stands for the hash set, and the typing rules out other objects.
- `getLibraryName()`. It is the plain field read `DefaultNamingScheme.LibraryName` and needs no contract.
- `NamingScheme.java`. It is an interface without behaviour, and the factory's `NamingScheme` record stands for it. `DefaultNamingScheme.determineName()` is not wired into the factory, because the factory calls a two-argument form that the source's `DefaultNamingScheme` does not provide.
- NativeLoaderFactory.CreateTempDirectory: `Files.createTempDirectory` always creates a new directory, retrying on a name collision. The model trusts the oracle to name a path that does not exist yet. Given an existing path, it adds that path to the directories, even when a regular file is there, a state Java never reaches. The lemmas that depend on the new directory require its path to be fresh.
- DefaultNamingScheme.DetermineName: `String.toLowerCase` is modelled as ASCII lower-casing. Locale-dependent and non-ASCII case mappings are not modelled.
- Null loaders and null loader arguments. The `Loader` datatype has no null case, so the model has no `new NativeInitializer(null, ..)`, `setNativeLoader(null)`, `a.fallbackTo(null)`, `systemLoader(null)` or `fileLoader(null)`. In Java each of these is accepted when built. It throws `NullPointerException` when the null loader would be invoked; for `a.fallbackTo(null)` that is only once `a` has thrown an Exception. An enclosing fallback catches it, and `get()` rethrows it unwrapped and stays uninitialized.
- `NativeLoaderException` and `NativeLoaderAlreadyInitializedException` are not part of this model as classes. They appear only as constructors of the exception datatype.

=== FILE: default_naming_scheme.dfy ===
/**
 * `DefaultNamingScheme`: maps the detected platform (architecture, OS name) to
 * the relative name of the native library built for it, provided the platform
 * has been registered as supported.
 *
 * The detected platform (`os.arch`, `os.name` system properties) is a parameter;
 * a property that is not set is `None`.
 */
module DefaultNamingScheme {
  import opened Wrappers
  import opened Failures

  /** The nested `Platform` class: equality and hashing by both fields. */
  datatype Platform = Platform(architecture: string, osName: string)

  /** A constructed scheme; Java's mutable platform set becomes a value. */
  datatype Scheme = Scheme(libraryName: string, relativePath: Option<string>, supportedPlatforms: set<Platform>)

  const DefaultRelativePath: string := "lib/"

  predicate EndsWithSlash(s: string) {
    |s| > 0 && s[|s| - 1] == '/'
  }

  /** `String.toLowerCase()`, restricted to ASCII letters. */
  function LowerChar(c: char): char {
    if 'A' <= c <= 'Z' then (c as int + 32) as char else c
  }

  function Lower(s: string): (r: string)
    ensures |r| == |s|
    ensures forall i :: 0 <= i < |s| ==> r[i] == LowerChar(s[i])
  {
    seq(|s|, i requires 0 <= i < |s| => LowerChar(s[i]))
  }

  /** Lower-casing a lower-cased string changes nothing. */
  lemma LowerIdempotent(s: string)
    ensures Lower(Lower(s)) == Lower(s)
  {
  }

  /** The `Platform` constructor: both fields must be non-null. */
  function NewPlatform(architecture: Option<string>, osName: Option<string>): (r: Result<Platform, Exception>)
    ensures architecture.None? ==> r == Failure(NullPointerException("architecture is null"))
    ensures architecture.Some? && osName.None? ==> r == Failure(NullPointerException("osName is null"))
    ensures r.Success? <==> architecture.Some? && osName.Some?
    ensures r.Success? ==> r.value.architecture == architecture.value && r.value.osName == osName.value
  {
    if architecture.None? then Failure(NullPointerException("architecture is null"))
    else if osName.None? then Failure(NullPointerException("osName is null"))
    else Success(Platform(architecture.value, osName.value))
  }

  /** `Platform.equals`: field-wise string equality. */
  function PlatformEquals(p: Platform, q: Platform): (eq: bool)
    ensures eq <==> p == q
  {
    p.architecture == q.architecture && p.osName == q.osName
  }

  /** The relative path as the constructor stores it: a non-null path always ends in "/". */
  function NormalizePath(relativePath: Option<string>): (r: Option<string>)
    ensures r.Some? <==> relativePath.Some?
    ensures r.Some? ==> EndsWithSlash(r.value)
    ensures r.Some? && EndsWithSlash(relativePath.value) ==> r.value == relativePath.value
    ensures r.Some? && !EndsWithSlash(relativePath.value) ==> r.value == relativePath.value + "/"
  {
    match relativePath
    case None => None
    case Some(p) => if EndsWithSlash(p) then Some(p) else Some(p + "/")
  }

  /** Normalising twice is normalising once, and a trailing slash is never doubled. */
  lemma NormalizePathIdempotent(relativePath: Option<string>)
    ensures NormalizePath(NormalizePath(relativePath)) == NormalizePath(relativePath)
    ensures relativePath.Some? && !EndsWithSlash(relativePath.value) ==>
              var r := NormalizePath(relativePath).value; !EndsWithSlash(r[..|r| - 1])
  {
  }

  /** The two-argument constructor `DefaultNamingScheme(libraryName, relativePath)`. */
  function NewScheme(libraryName: Option<string>, relativePath: Option<string>): (r: Result<Scheme, Exception>)
    ensures libraryName.None? ==> r == Failure(NullPointerException("libraryName is null"))
    ensures libraryName == Some("") ==> r == Failure(IllegalArgumentException("libraryName is empty"))
    ensures r.Success? <==> libraryName.Some? && libraryName.value != ""
    ensures r.Success? ==>
              && r.value.libraryName == libraryName.value
              && r.value.relativePath == NormalizePath(relativePath)
              && r.value.supportedPlatforms == {}
  {
    if libraryName.None? then Failure(NullPointerException("libraryName is null"))
    else if libraryName.value == "" then Failure(IllegalArgumentException("libraryName is empty"))
    else Success(Scheme(libraryName.value, NormalizePath(relativePath), {}))
  }

  /** The one-argument constructor `DefaultNamingScheme(libraryName)`: relative path "lib/". */
  function NewDefaultScheme(libraryName: Option<string>): (r: Result<Scheme, Exception>)
    ensures r == NewScheme(libraryName, Some(DefaultRelativePath))
    ensures r.Success? ==> r.value.relativePath == Some("lib/")
  {
    NewScheme(libraryName, Some(DefaultRelativePath))
  }

  /** `getLibraryName()`. */
  function LibraryName(s: Scheme): string {
    s.libraryName
  }

  /** `addSupportedPlatform(architecture, osName)`: the platform is stored as given. */
  function AddSupportedPlatform(s: Scheme, architecture: Option<string>, osName: Option<string>): (r: Result<Scheme, Exception>)
    ensures r.Success? <==> architecture.Some? && osName.Some?
    ensures r.Failure? ==> r.error.NullPointerException?
    ensures r.Success? ==>
              && r.value.supportedPlatforms == s.supportedPlatforms + {Platform(architecture.value, osName.value)}
              && r.value.libraryName == s.libraryName
              && r.value.relativePath == s.relativePath
  {
    var p :- NewPlatform(architecture, osName);
    Success(s.(supportedPlatforms := s.supportedPlatforms + {p}))
  }

  /** `removeSupportedPlatform(architecture, osName)`. */
  function RemoveSupportedPlatform(s: Scheme, architecture: Option<string>, osName: Option<string>): (r: Result<Scheme, Exception>)
    ensures r.Success? <==> architecture.Some? && osName.Some?
    ensures r.Failure? ==> r.error.NullPointerException?
    ensures r.Success? ==>
              && r.value.supportedPlatforms == s.supportedPlatforms - {Platform(architecture.value, osName.value)}
              && r.value.libraryName == s.libraryName
              && r.value.relativePath == s.relativePath
  {
    var p :- NewPlatform(architecture, osName);
    Success(s.(supportedPlatforms := s.supportedPlatforms - {p}))
  }

  /** The prefix the relative path contributes to a name. */
  function PathPrefix(relativePath: Option<string>): string {
    if relativePath.Some? then relativePath.value else ""
  }

  /**
   * `determineName()` on the detected platform: the lower-cased OS name and the
   * architecture must form a registered platform.
   */
  function DetermineName(s: Scheme, osArch: Option<string>, osName: Option<string>): (r: Result<string, Exception>)
    ensures osName.None? ==> r.Failure? && r.error.NullPointerException?
    ensures osName.Some? && osArch.None? ==> r == Failure(NullPointerException("architecture is null"))
    ensures r.Success? <==>
              osArch.Some? && osName.Some? && Platform(osArch.value, Lower(osName.value)) in s.supportedPlatforms
    ensures osArch.Some? && osName.Some? && r.Failure? ==> r.error.UnsupportedOperationException?
    ensures r.Success? ==> r.value == PathPrefix(s.relativePath) + Lower(osName.value) + "-" + osArch.value
  {
    if osName.None? then Failure(NullPointerException("toLowerCase on null os.name"))
    else
      var platform :- NewPlatform(osArch, Some(Lower(osName.value)));
      if platform !in s.supportedPlatforms then
        Failure(UnsupportedOperationException("Platform " + platform.osName + ":" + platform.architecture + " not supported"))
      else
        var result := platform.osName + "-" + platform.architecture;
        if s.relativePath.Some? then Success(s.relativePath.value + result) else Success(result)
  }

  /** A freshly constructed scheme supports no platform at all. */
  lemma FreshSchemeRejectsEveryPlatform(libraryName: Option<string>, relativePath: Option<string>,
                                        osArch: Option<string>, osName: Option<string>)
    requires NewScheme(libraryName, relativePath).Success?
    ensures DetermineName(NewScheme(libraryName, relativePath).value, osArch, osName).Failure?
  {
  }

  /** The library name never contributes to the determined name. */
  lemma LibraryNameIrrelevant(s: Scheme, libraryName: string, osArch: Option<string>, osName: Option<string>)
    ensures DetermineName(s.(libraryName := libraryName), osArch, osName) == DetermineName(s, osArch, osName)
  {
  }

  /** Adding a platform twice is adding it once. */
  lemma AddSupportedPlatformIdempotent(s: Scheme, architecture: string, osName: string)
    ensures AddSupportedPlatform(AddSupportedPlatform(s, Some(architecture), Some(osName)).value, Some(architecture), Some(osName))
            == AddSupportedPlatform(s, Some(architecture), Some(osName))
  {
  }

  /**
   * After registering a lower-case platform, every detection that lower-cases to
   * it is accepted, and yields path, OS name and architecture in that order.
   */
  lemma AddedPlatformIsAccepted(s: Scheme, architecture: string, osName: string, detectedOsName: string)
    requires Lower(detectedOsName) == osName
    ensures var s' := AddSupportedPlatform(s, Some(architecture), Some(osName)).value;
            DetermineName(s', Some(architecture), Some(detectedOsName))
            == Success(PathPrefix(s.relativePath) + osName + "-" + architecture)
  {
  }

  /** After removing a platform, no detection that lower-cases to it is accepted. */
  lemma RemovedPlatformIsRejected(s: Scheme, architecture: string, osName: string, detectedOsName: string)
    requires Lower(detectedOsName) == osName
    ensures var s' := RemoveSupportedPlatform(s, Some(architecture), Some(osName)).value;
            DetermineName(s', Some(architecture), Some(detectedOsName)).Failure?
  {
  }

  /**
   * Registered platforms are stored as given but the detected OS name is
   * lower-cased, so registering an OS name with an upper-case letter changes
   * nothing the scheme ever answers.
   */
  lemma UpperCaseOsNameNeverMatches(s: Scheme, architecture: string, osName: string,
                                    osArch: Option<string>, detectedOsName: Option<string>)
    requires Lower(osName) != osName
    ensures DetermineName(AddSupportedPlatform(s, Some(architecture), Some(osName)).value, osArch, detectedOsName)
            == DetermineName(s, osArch, detectedOsName)
  {
  }

  /**
   * The detected OS name is lower-cased before matching but the architecture is
   * not: the case of the OS name never matters, while an architecture differing
   * from every registered one for that OS name, in case alone or otherwise, is
   * rejected.
   */
  lemma ArchitectureIsCaseSensitive(s: Scheme, osArch: Option<string>, osName: string, arch: string)
    ensures DetermineName(s, osArch, Some(osName)) == DetermineName(s, osArch, Some(Lower(osName)))
    ensures Platform(arch, Lower(osName)) !in s.supportedPlatforms ==> DetermineName(s, Some(arch), Some(osName)).Failure?
  {
    LowerIdempotent(osName);
  }
}

=== FILE: environment.dfy ===
/**
 * The world the loaders act on: an abstract filesystem, and the JVM services the
 * core calls but does not implement (class-path resources, the dynamic linker,
 * random names), given as oracles.
 */
module Environment {
  import opened Wrappers
  import opened Failures

  newtype byte = x: int | 0 <= x < 256

  type Bytes = seq<byte>

  /** A path as its sequence of name components. */
  type Path = seq<string>

  /** `dir.resolve(name)` for a single-component `name`. */
  function Resolve(dir: Path, name: string): Path {
    dir + [name]
  }

  /**
   * Regular files with their contents, directories, and the paths registered
   * with `File.deleteOnExit()`.
   */
  datatype Env = Env(files: map<Path, Bytes>, dirs: set<Path>, exitHooks: set<Path>)

  /** `Files.exists(p)`. */
  predicate Exists(env: Env, p: Path) {
    p in env.files || p in env.dirs
  }

  /** The content of the regular file at `p`, if there is one. */
  function Content(env: Env, p: Path): Option<Bytes> {
    if p in env.files then Some(env.files[p]) else None
  }

  /**
   * The JVM as the core sees it.
   *  - resources: the class loader's resources by name (`getResourceAsStream`);
   *  - readSize: how many bytes `InputStream.read(buf)` hands over when `pos`
   *    bytes have been read so far (clamped to what `read` may legally return);
   *  - uuid: the name `UUID.randomUUID().toString()` yields in a given state;
   *  - tempDirectory: the directory `Files.createTempDirectory(prefix)` creates;
   *  - loadLibrary: `System.loadLibrary(name)`;
   *  - loadFile: `System.load(path)`, given the file's current content.
   */
  datatype Jvm = Jvm(
    resources: map<string, Bytes>,
    readSize: nat -> nat,
    uuid: Env -> string,
    tempDirectory: (string, Env) -> Path,
    loadLibrary: string -> Outcome,
    loadFile: (Path, Option<Bytes>) -> Outcome)
}

=== FILE: failures.dfy ===
/** The Java throwables the native initializer raises or lets through. */
module Failures {

  /** The `java.lang.Exception` subclasses that appear in the core. */
  datatype Exception =
    | IOException(message: string)
    | NullPointerException(message: string)
    | IllegalArgumentException(message: string)
    | UnsupportedOperationException(message: string)
    | NativeLoaderException(cause: Exception)
    | NativeLoaderAlreadyInitializedException
      /** Any other exception a collaborator (linker, supplier) may throw. */
    | OtherException(message: string)

  /** A `Throwable`: an `Exception`, or an `Error` such as `UnsatisfiedLinkError`. */
  datatype Thrown = Exc(exception: Exception) | Err(error: string)

  /** How a call to `NativeLoader.load()` ends. */
  datatype Outcome = Ok | Threw(thrown: Thrown) {

    /** The call threw something a `catch (Exception e)` block catches. */
    predicate IsException() {
      Threw? && thrown.Exc?
    }

    /** The call threw an `Error`, which no `catch (Exception e)` block catches. */
    predicate IsError() {
      Threw? && thrown.Err?
    }
  }
}

=== FILE: native_initializer.dfy ===
/**
 * `NativeInitializer`: loads the native library and builds a dependent value on
 * the first `get()`, caches it, and never does so again once it succeeded.
 *
 * Sequential semantics only. The supplier is an oracle: each `get()` is given
 * what `initializer.get()` would do if it were invoked during that call.
 */
module NativeInitializer {
  import opened Wrappers
  import opened Failures
  import opened Environment
  import opened NativeLoaderFactory

  /** The fields `loader`, `initialized` and `value` (`None` stands for the unset field). */
  datatype State<T> = State(loader: Loader, initialized: bool, value: Option<T>) {
    /** A value is stored exactly when the initializer is initialized. */
    predicate Valid() {
      initialized == value.Some?
    }
  }

  /** What a call invoked, in order. */
  datatype Event = LoadInvoked(outcome: Outcome) | SupplierInvoked(succeeded: bool)

  /** The state after `get()`, the filesystem after it, what it returned or threw, and what it invoked. */
  datatype Step<T> = Step(state: State<T>, env: Env, result: Result<T, Thrown>, events: seq<Event>)

  /** The constructor `NativeInitializer(loader, initializer)`. */
  function New<T>(loader: Loader): (s: State<T>)
    ensures s.Valid() && !s.initialized && s.loader == loader
  {
    State(loader, false, None)
  }

  /** `setNativeLoader(loader)`: refused once initialized, otherwise replaces the loader. */
  function SetNativeLoader<T>(s: State<T>, loader: Loader): (r: Result<State<T>, Exception>)
    ensures s.initialized ==> r == Failure(NativeLoaderAlreadyInitializedException)
    ensures !s.initialized ==> r.Success? && r.value.loader == loader
    ensures r.Success? ==> r.value.initialized == s.initialized && r.value.value == s.value
  {
    if s.initialized then Failure(NativeLoaderAlreadyInitializedException)
    else Success(s.(loader := loader))
  }

  /** The exception `get()` throws when `load()` threw: an IOException is wrapped, anything else passes through. */
  function Rethrown(t: Thrown): (r: Thrown)
    ensures t.Exc? && t.exception.IOException? ==> r == Exc(NativeLoaderException(t.exception))
    ensures !(t.Exc? && t.exception.IOException?) ==> r == t
  {
    if t.Exc? && t.exception.IOException? then Exc(NativeLoaderException(t.exception)) else t
  }

  /**
   * `get()`. Initialized: returns the cached value and invokes nothing.
   * Otherwise: `loader.load()`, then (only if it returned) the supplier; only a
   * value from the supplier initializes, and that value is returned.
   */
  function Get<T>(s: State<T>, jvm: Jvm, env: Env, supplied: Result<T, Thrown>): (step: Step<T>)
    requires s.Valid()
    ensures step.state.Valid()
    ensures step.state.loader == s.loader
    ensures s.initialized ==> step == Step(s, env, Success(s.value.value), [])
    ensures !s.initialized ==>
              var run := Load(s.loader, jvm, env);
              && step.env == run.env
              && |step.events| == (if run.outcome.Ok? then 2 else 1)
              && step.events[0] == LoadInvoked(run.outcome)
              && (run.outcome.Ok? ==> step.events[1] == SupplierInvoked(supplied.Success?))
              && (run.outcome.Threw? ==> step.result == Failure(Rethrown(run.outcome.thrown)))
    ensures step.state.initialized <==>
              s.initialized || (Load(s.loader, jvm, env).outcome.Ok? && supplied.Success?)
    ensures step.state.initialized ==> step.result == Success(step.state.value.value)
    ensures !step.state.initialized ==> step.state == s && step.result.Failure?
    ensures !s.initialized && step.state.initialized ==> step.state.value == Some(supplied.value)
    ensures !s.initialized && Load(s.loader, jvm, env).outcome.Ok? && supplied.Failure? ==> step.result == supplied
  {
    if s.initialized then
      Step(s, env, Success(s.value.value), [])
    else
      var run := Load(s.loader, jvm, env);
      match run.outcome
      case Threw(t) => Step(s, run.env, Failure(Rethrown(t)), [LoadInvoked(run.outcome)])
      case Ok =>
        match supplied
        case Failure(t) => Step(s, run.env, Failure(t), [LoadInvoked(Ok), SupplierInvoked(false)])
        case Success(v) => Step(State(s.loader, true, Some(v)), run.env, Success(v), [LoadInvoked(Ok), SupplierInvoked(true)])
  }

  /** A call on the initializer. */
  datatype Call<T> = GetCall(jvm: Jvm, supplied: Result<T, Thrown>) | SetNativeLoaderCall(loader: Loader)

  /** The state after a sequence of calls, all events, and what each `get()` returned or threw. */
  datatype Trace<T> = Trace(state: State<T>, env: Env, events: seq<Event>, gets: seq<Result<T, Thrown>>)

  function RunCalls<T>(s: State<T>, env: Env, calls: seq<Call<T>>): (t: Trace<T>)
    requires s.Valid()
    ensures t.state.Valid()
    decreases |calls|
  {
    if |calls| == 0 then Trace(s, env, [], [])
    else
      match calls[0]
      case SetNativeLoaderCall(l) =>
        RunCalls(AfterSet(s, l), env, calls[1..])
      case GetCall(jvm, supplied) =>
        var step := Get(s, jvm, env, supplied);
        var rest := RunCalls(step.state, step.env, calls[1..]);
        Trace(rest.state, rest.env, step.events + rest.events, [step.result] + rest.gets)
  }

  /**
   * Once initialized, nothing changes: no call invokes the loader or the
   * supplier, `setNativeLoader` leaves the loader alone, and every `get()`
   * returns the stored value.
   */
  lemma {:induction false} InitializedNeverReverts<T>(s: State<T>, env: Env, calls: seq<Call<T>>)
    requires s.Valid() && s.initialized
    ensures var t := RunCalls(s, env, calls);
            && t.state == s
            && t.env == env
            && t.events == []
            && forall i :: 0 <= i < |t.gets| ==> t.gets[i] == Success(s.value.value)
    decreases |calls|
  {
    if |calls| > 0 {
      InitializedNeverReverts(s, env, calls[1..]);
    }
  }

  /** One call of a run, unfolded. */
  lemma RunUnfold<T>(s: State<T>, env: Env, calls: seq<Call<T>>)
    requires s.Valid() && |calls| > 0 && calls[0].GetCall?
    ensures var step := Get(s, calls[0].jvm, env, calls[0].supplied);
            var rest := RunCalls(step.state, step.env, calls[1..]);
            RunCalls(s, env, calls) == Trace(rest.state, rest.env, step.events + rest.events, [step.result] + rest.gets)
  {
  }

  /** A `setNativeLoader` call of a run, unfolded. */
  lemma RunUnfoldSet<T>(s: State<T>, env: Env, calls: seq<Call<T>>)
    requires s.Valid() && |calls| > 0 && calls[0].SetNativeLoaderCall?
    ensures RunCalls(s, env, calls) == RunCalls(AfterSet(s, calls[0].loader), env, calls[1..])
  {
  }

  /** The state after a `setNativeLoader` call of a run. */
  function AfterSet<T>(s: State<T>, l: Loader): (s': State<T>)
    requires s.Valid()
    ensures s'.Valid() && s'.initialized == s.initialized && s'.value == s.value
  {
    match SetNativeLoader(s, l) case Success(s1) => s1 case Failure(_) => s
  }

  /**
   * The supplier succeeds at most once over any sequence of calls, and after it
   * succeeded nothing is invoked again.
   */
  lemma {:induction false} SupplierSucceedsAtMostOnce<T>(s: State<T>, env: Env, calls: seq<Call<T>>)
    requires s.Valid()
    ensures var t := RunCalls(s, env, calls);
            forall i :: 0 <= i < |t.events| && t.events[i] == SupplierInvoked(true) ==>
              i == |t.events| - 1 && !s.initialized
    decreases |calls|
  {
    if |calls| > 0 {
      match calls[0]
      case SetNativeLoaderCall(l) =>
        RunUnfoldSet(s, env, calls);
        SupplierSucceedsAtMostOnce(AfterSet(s, l), env, calls[1..]);
      case GetCall(jvm, supplied) =>
        var step := Get(s, jvm, env, supplied);
        var rest := RunCalls(step.state, step.env, calls[1..]);
        RunUnfold(s, env, calls);
        var events := step.events + rest.events;
        SupplierSucceedsAtMostOnce(step.state, step.env, calls[1..]);
        if step.state.initialized {
          InitializedNeverReverts(step.state, step.env, calls[1..]);
          if !s.initialized {
            assert events == step.events;
            assert step.events[0].LoadInvoked?;
          }
        } else {
          forall i | 0 <= i < |step.events|
            ensures step.events[i] != SupplierInvoked(true)
          {
            assert !s.initialized;
          }
        }
    }
  }

  /** Every `load()` that returned normally is immediately followed by an invocation of the supplier. */
  lemma {:induction false} SuccessfulLoadThenSupplier<T>(s: State<T>, env: Env, calls: seq<Call<T>>)
    requires s.Valid()
    ensures var t := RunCalls(s, env, calls);
            forall i :: 0 <= i < |t.events| && t.events[i] == LoadInvoked(Ok) ==>
              i + 1 < |t.events| && t.events[i + 1].SupplierInvoked?
    decreases |calls|
  {
    if |calls| > 0 {
      match calls[0]
      case SetNativeLoaderCall(l) =>
        RunUnfoldSet(s, env, calls);
        SuccessfulLoadThenSupplier(AfterSet(s, l), env, calls[1..]);
      case GetCall(jvm, supplied) =>
        var step := Get(s, jvm, env, supplied);
        var rest := RunCalls(step.state, step.env, calls[1..]);
        RunUnfold(s, env, calls);
        SuccessfulLoadThenSupplier(step.state, step.env, calls[1..]);
        var events := step.events + rest.events;
        forall i | 0 <= i < |events| && events[i] == LoadInvoked(Ok)
          ensures i + 1 < |events| && events[i + 1].SupplierInvoked?
        {
          if i < |step.events| {
            assert i == 0;
          } else {
            assert events[i] == rest.events[i - |step.events|];
          }
        }
    }
  }

  /** All `get()` calls that return, return the same value. */
  lemma {:induction false} SuccessfulGetsAgree<T>(s: State<T>, env: Env, calls: seq<Call<T>>)
    requires s.Valid()
    ensures var t := RunCalls(s, env, calls);
            forall i, j :: 0 <= i < |t.gets| && 0 <= j < |t.gets| && t.gets[i].Success? && t.gets[j].Success? ==>
              t.gets[i].value == t.gets[j].value
    decreases |calls|
  {
    if s.initialized {
      InitializedNeverReverts(s, env, calls);
    } else if |calls| > 0 {
      match calls[0]
      case SetNativeLoaderCall(l) =>
        RunUnfoldSet(s, env, calls);
        SuccessfulGetsAgree(AfterSet(s, l), env, calls[1..]);
      case GetCall(jvm, supplied) =>
        var step := Get(s, jvm, env, supplied);
        var rest := RunCalls(step.state, step.env, calls[1..]);
        RunUnfold(s, env, calls);
        var gets := [step.result] + rest.gets;
        if step.state.initialized {
          InitializedNeverReverts(step.state, step.env, calls[1..]);
          assert forall i :: 0 <= i < |gets| ==> gets[i] == Success(step.state.value.value);
        } else {
          SuccessfulGetsAgree(step.state, step.env, calls[1..]);
          assert forall i :: 1 <= i < |gets| ==> gets[i] == rest.gets[i - 1];
        }
    }
  }

  /** After a failed `get()` the initializer is as before, so the next `get()` loads again. */
  lemma FailedGetRetries<T>(s: State<T>, jvm: Jvm, env: Env, supplied: Result<T, Thrown>,
                            jvm': Jvm, supplied': Result<T, Thrown>)
    requires s.Valid() && !s.initialized
    requires Get(s, jvm, env, supplied).result.Failure?
    ensures var step := Get(s, jvm, env, supplied);
            var again := Get(step.state, jvm', step.env, supplied');
            again.events[0] == LoadInvoked(Load(s.loader, jvm', step.env).outcome)
  {
  }

  /** `setNativeLoader` before initialization decides which loader the next `get()` invokes. */
  lemma SetLoaderThenGetUsesIt<T>(s: State<T>, loader: Loader, jvm: Jvm, env: Env, supplied: Result<T, Thrown>)
    requires s.Valid() && !s.initialized
    ensures SetNativeLoader(s, loader).Success?
    ensures Get(SetNativeLoader(s, loader).value, jvm, env, supplied).events[0]
            == LoadInvoked(Load(loader, jvm, env).outcome)
  {
  }

  /**
   * `load()` can return normally more than once: a supplier that throws leaves
   * the initializer uninitialized, and the next `get()` loads again.
   */
  lemma LoadRepeatsAfterSupplierFailure(loader: Loader, jvm: Jvm, env: Env)
    requires Load(loader, jvm, env).outcome.Ok?
    requires Load(loader, jvm, Load(loader, jvm, env).env).outcome.Ok?
    ensures var calls := [GetCall(jvm, Failure(Exc(OtherException("supplier failed")))), GetCall(jvm, Success(0))];
            var t := RunCalls(New<int>(loader), env, calls);
            && t.events == [LoadInvoked(Ok), SupplierInvoked(false), LoadInvoked(Ok), SupplierInvoked(true)]
            && t.gets == [Failure(Exc(OtherException("supplier failed"))), Success(0)]
  {
    var failed: Result<int, Thrown> := Failure(Exc(OtherException("supplier failed")));
    var calls := [GetCall(jvm, failed), GetCall(jvm, Success(0))];
    var s0 := New<int>(loader);
    var step1 := Get(s0, jvm, env, failed);
    assert step1.state == s0;
    assert step1.events == [LoadInvoked(Ok), SupplierInvoked(false)];
    var step2 := Get(s0, jvm, step1.env, Success(0));
    assert step2.events == [LoadInvoked(Ok), SupplierInvoked(true)];
    assert calls[1..][1..] == [];
    var last := RunCalls(step2.state, step2.env, calls[1..][1..]);
    assert last.events == [] && last.gets == [];
    RunUnfold(s0, step1.env, calls[1..]);
    RunUnfold(s0, env, calls);
  }
}

=== FILE: native_loader.dfy ===
/**
 * `NativeLoader.fallbackTo`: composing loaders into fallback chains, and what a
 * chain's `load()` does.
 */
module NativeLoader {
  import opened Failures
  import opened Environment
  import opened NativeLoaderFactory

  /** `a.fallbackTo(b)`: tries `a`, then `b`; building it loads nothing. */
  function FallbackTo(l: Loader, other: Loader): (r: Loader)
    ensures r.Fallback? && r.first == l && r.second == other
    ensures Leaves(r) == Leaves(l) + Leaves(other)
  {
    Fallback(l, other)
  }

  /** `ls[0].fallbackTo(ls[1]).fallbackTo(ls[2])...`, nested to the left. */
  function Chain(ls: seq<Loader>): Loader
    requires |ls| >= 1
    decreases |ls|
  {
    if |ls| == 1 then ls[0] else FallbackTo(Chain(ls[..|ls| - 1]), ls[|ls| - 1])
  }

  /** A left-nested chain of non-fallback loaders has exactly those loaders as leaves, in order. */
  lemma {:induction false} ChainLeaves(ls: seq<Loader>)
    requires |ls| >= 1
    requires forall i :: 0 <= i < |ls| ==> !ls[i].Fallback?
    ensures Leaves(Chain(ls)) == ls
  {
    if |ls| > 1 {
      var init := ls[..|ls| - 1];
      ChainLeaves(init);
      assert ls == init + [ls[|ls| - 1]];
    }
  }

  /** If the first loader succeeds, the second is never invoked. */
  lemma FallbackFirstSucceeds(a: Loader, b: Loader, jvm: Jvm, env: Env)
    requires Load(a, jvm, env).outcome.Ok?
    ensures Load(FallbackTo(a, b), jvm, env) == Load(a, jvm, env)
  {
  }

  /** If the first loader throws an Exception, the second runs and decides the outcome. */
  lemma FallbackFirstThrowsException(a: Loader, b: Loader, jvm: Jvm, env: Env)
    requires Load(a, jvm, env).outcome.IsException()
    ensures var r1 := Load(a, jvm, env);
            var r2 := Load(b, jvm, r1.env);
            Load(FallbackTo(a, b), jvm, env) == Run(r2.env, r2.outcome, r1.attempts + r2.attempts)
  {
    assert FallbackTo(a, b) == Fallback(a, b);
  }

  /** An Error from the first loader propagates without trying the second. */
  lemma FallbackFirstThrowsError(a: Loader, b: Loader, jvm: Jvm, env: Env)
    requires Load(a, jvm, env).outcome.IsError()
    ensures Load(FallbackTo(a, b), jvm, env) == Load(a, jvm, env)
  {
  }

  /**
   * `System.loadLibrary` reports a missing library with `UnsatisfiedLinkError`,
   * an Error: a fallback whose first loader is a system loader does not fall
   * back when the library is missing.
   */
  lemma MissingSystemLibraryDoesNotFallBack(name: string, b: Loader, jvm: Jvm, env: Env)
    requires jvm.loadLibrary(name).IsError()
    ensures Load(FallbackTo(System(name), b), jvm, env).outcome == jvm.loadLibrary(name)
    ensures |Load(FallbackTo(System(name), b), jvm, env).attempts| == 1
  {
  }

  /**
   * A chain `ls[0].fallbackTo(ls[1])...` tries its members in order, each at
   * most once, stopping at the first that does not throw an Exception.
   */
  lemma ChainTriesInOrder(ls: seq<Loader>, jvm: Jvm, env: Env)
    requires |ls| >= 1
    requires forall i :: 0 <= i < |ls| ==> !ls[i].Fallback?
    ensures var run := Load(Chain(ls), jvm, env);
            && |run.attempts| <= |ls|
            && (forall i :: 0 <= i < |run.attempts| ==> run.attempts[i].loader == ls[i])
            && (forall i :: 0 <= i < |run.attempts| - 1 ==> run.attempts[i].outcome.IsException())
  {
    ChainLeaves(ls);
  }

  /**
   * When no member throws an Error, a loader succeeds exactly when some member
   * it tried succeeds; if it fails, every member was tried and the surfaced
   * failure is the last member's.
   */
  lemma SucceedsIffSomeMemberSucceeds(l: Loader, jvm: Jvm, env: Env)
    requires var run := Load(l, jvm, env);
             forall i :: 0 <= i < |run.attempts| ==> !run.attempts[i].outcome.IsError()
    ensures var run := Load(l, jvm, env);
            run.outcome.Ok? <==> exists i :: 0 <= i < |run.attempts| && run.attempts[i].outcome.Ok?
    ensures var run := Load(l, jvm, env);
            !run.outcome.Ok? ==>
              && |run.attempts| == |Leaves(l)|
              && run.attempts[|run.attempts| - 1].loader == Leaves(l)[|Leaves(l)| - 1]
              && run.outcome.IsException()
  {
  }
}

=== FILE: native_loader_factory.dfy ===
/**
 * `NativeLoaderFactory`: the loader strategies (system search path, explicit
 * file, class-path resource extracted to a fixed or fresh temporary directory,
 * and the fallback combinator), and `saveLibrary`, which extracts a resource to
 * disk through a randomly named temporary file and a single replace-move.
 */
module NativeLoaderFactory {
  import opened Wrappers
  import opened Failures
  import opened Environment

  /**
   * What the factory uses of its naming scheme: the library name, and
   * `determineName(includePath, includeVersion)`, which may throw.
   */
  datatype NamingScheme = NamingScheme(libraryName: string, determineName: (bool, bool) -> Result<string, Exception>)

  datatype Factory = Factory(namingScheme: NamingScheme)

  /** The constructor: a null naming scheme is rejected. */
  function NewFactory(namingScheme: Option<NamingScheme>): (r: Result<Factory, Exception>)
    ensures namingScheme.None? ==> r == Failure(NullPointerException("namingScheme null"))
    ensures namingScheme.Some? ==> r.Success? && r.value.namingScheme == namingScheme.value
  {
    if namingScheme.None? then Failure(NullPointerException("namingScheme null"))
    else Success(Factory(namingScheme.value))
  }

  /** The loader objects the factory hands out; `Fallback` is `FallbackLoader`. */
  datatype Loader =
    | System(libraryName: string)
    | File(path: Path)
    | Resource(scheme: NamingScheme, libraryName: string, directory: Path, deleteOnExit: bool)
    | TempDirResource(scheme: NamingScheme, libraryName: string)
    | Fallback(first: Loader, second: Loader)

  /** The non-fallback loaders of `l`, left to right. */
  function Leaves(l: Loader): (ls: seq<Loader>)
    ensures |ls| >= 1
    ensures forall i :: 0 <= i < |ls| ==> !ls[i].Fallback?
  {
    if l.Fallback? then Leaves(l.first) + Leaves(l.second) else [l]
  }

  // ---------------------------------------------------------------------------
  // toFile and saveLibrary

  const BufferSize: nat := 16 * 1024

  /** What one `in.read(buf)` returns while `remaining > 0` bytes are left: 1 to buf.length bytes. */
  function ReadCount(requested: nat, remaining: nat): (cnt: nat)
    requires remaining > 0
    ensures 1 <= cnt <= remaining && cnt <= BufferSize
  {
    var most := if remaining < BufferSize then remaining else BufferSize;
    if requested < 1 then 1 else if requested > most then most else requested
  }

  /** The copy loop of `toFile` from stream position `pos`: what it writes to the file. */
  function CopyFrom(input: Bytes, readSize: nat -> nat, pos: nat): (written: Bytes)
    requires pos <= |input|
    ensures written == input[pos..]
    decreases |input| - pos
  {
    if pos == |input| then []
    else
      var cnt := ReadCount(readSize(pos), |input| - pos);
      input[pos..pos + cnt] + CopyFrom(input, readSize, pos + cnt)
  }

  /** `toFile`: whatever chunk sizes the stream delivers, the file receives exactly the stream. */
  function ToFile(input: Bytes, readSize: nat -> nat): (written: Bytes)
    ensures written == input
  {
    CopyFrom(input, readSize, 0)
  }

  /** The state after a call, and how the call ended. */
  datatype Saved = Saved(env: Env, result: Result<Path, Exception>)

  /** `if (!Files.exists(dir)) Files.createDirectory(dir)`. */
  function CreateDirectoryIfAbsent(env: Env, dir: Path): (env': Env)
    ensures env'.files == env.files && env'.exitHooks == env.exitHooks
    ensures env'.dirs == if Exists(env, dir) then env.dirs else env.dirs + {dir}
  {
    if Exists(env, dir) then env else env.(dirs := env.dirs + {dir})
  }

  function RegisterExitHook(env: Env, p: Path, deleteOnExit: bool): Env {
    if deleteOnExit then env.(exitHooks := env.exitHooks + {p}) else env
  }

  /** The temporary file `saveLibrary` writes to in state `env`. */
  function TempFile(jvm: Jvm, dir: Path, env: Env): Path {
    Resolve(dir, jvm.uuid(env))
  }

  /**
   * The extraction path of `saveLibrary`: read the resource, write it to a
   * random temporary file, move that file onto `file`.
   */
  function Extract(resourceName: string, dir: Path, file: Path, deleteOnExit: bool, jvm: Jvm, env: Env): (s: Saved)
    ensures resourceName !in jvm.resources ==> s == Saved(env, Failure(IOException("Resource '" + resourceName + "' does not exist")))
    ensures s.result.Success? ==>
              && s.result.value == file
              && resourceName in jvm.resources
              && file in s.env.files && s.env.files[file] == jvm.resources[resourceName]
              && (TempFile(jvm, dir, env) != file ==> TempFile(jvm, dir, env) !in s.env.files)
              && s.env.dirs == env.dirs
              && s.env.exitHooks == if deleteOnExit then env.exitHooks + {file} else env.exitHooks
    ensures forall p :: p != file && p != TempFile(jvm, dir, env) && p in env.files ==>
              p in s.env.files && s.env.files[p] == env.files[p]
    ensures s.result.Failure? ==> Content(s.env, file) == Content(env, file)
    ensures forall p :: p in s.env.files ==> p in env.files || p == file || p == TempFile(jvm, dir, env)
  {
    var tmpFile := TempFile(jvm, dir, env);
    if resourceName !in jvm.resources then
      Saved(env, Failure(IOException("Resource '" + resourceName + "' does not exist")))
    else if tmpFile in env.dirs || dir !in env.dirs then
      // new FileOutputStream(tmpFile) cannot open a directory, or a file in a non-directory
      Saved(env, Failure(IOException("cannot open '" + jvm.uuid(env) + "'")))
    else
      var written := ToFile(jvm.resources[resourceName], jvm.readSize);
      var env2 := env.(files := env.files[tmpFile := written]);
      if tmpFile == file then
        // moving a file onto itself has no effect
        Saved(RegisterExitHook(env2, file, deleteOnExit), Success(file))
      else if file in env2.dirs then
        // a regular file cannot replace a directory; the temporary file stays
        Saved(env2, Failure(IOException("cannot move onto a directory")))
      else
        var env3 := env2.(files := (env2.files - {tmpFile})[file := written]);
        Saved(RegisterExitHook(env3, file, deleteOnExit), Success(file))
  }

  /**
   * `saveLibrary(dir, deleteOnExit)`: the resource is looked up under
   * `determineName(true, false)` and extracted to `dir/determineName(false, true)`;
   * in a fixed directory (deleteOnExit false) an existing destination is reused.
   */
  function SaveLibrary(scheme: NamingScheme, dir: Path, deleteOnExit: bool, jvm: Jvm, env: Env): (s: Saved)
    ensures s.env.exitHooks <= env.exitHooks + (if s.result.Success? then {s.result.value} else {})
    ensures s.env.dirs <= env.dirs + {dir}
    ensures s.result.Success? ==>
              && scheme.determineName(true, false).Success?
              && scheme.determineName(false, true).Success?
              && s.result.value == Resolve(dir, scheme.determineName(false, true).value)
              && Exists(s.env, s.result.value)
    ensures s.result.Failure? && NamesDetermined(scheme) ==>
              Content(s.env, Destination(scheme, dir)) == Content(env, Destination(scheme, dir))
    ensures forall p :: p in s.env.files ==>
              || p in env.files
              || (NamesDetermined(scheme)
                  && (p == Destination(scheme, dir) || p == TempFile(jvm, dir, CreateDirectoryIfAbsent(env, dir))))
  {
    match scheme.determineName(true, false)
    case Failure(e) => Saved(env, Failure(e))
    case Success(resourceName) =>
      var env1 := CreateDirectoryIfAbsent(env, dir);
      match scheme.determineName(false, true)
      case Failure(e) => Saved(env1, Failure(e))
      case Success(fileName) =>
        var file := Resolve(dir, fileName);
        if Exists(env1, file) && !deleteOnExit then Saved(env1, Success(file))
        else Extract(resourceName, dir, file, deleteOnExit, jvm, env1)
  }

  /** Both names of the scheme can be determined. */
  predicate NamesDetermined(scheme: NamingScheme) {
    scheme.determineName(true, false).Success? && scheme.determineName(false, true).Success?
  }

  /** The destination `saveLibrary` extracts to. */
  function Destination(scheme: NamingScheme, dir: Path): Path
    requires NamesDetermined(scheme)
  {
    Resolve(dir, scheme.determineName(false, true).value)
  }

  /** Whether `saveLibrary` skips extraction: a fixed directory whose destination exists. */
  predicate TakesFastPath(scheme: NamingScheme, dir: Path, deleteOnExit: bool, env: Env)
    requires NamesDetermined(scheme)
  {
    !deleteOnExit && Exists(env, Destination(scheme, dir))
  }

  /**
   * Fast path: the existing destination is returned, no file is written, and the
   * resource store is not consulted (the outcome is the same for any store).
   */
  lemma SaveLibraryFastPath(scheme: NamingScheme, dir: Path, jvm: Jvm, env: Env, resources: map<string, Bytes>)
    requires NamesDetermined(scheme)
    requires TakesFastPath(scheme, dir, false, env)
    ensures SaveLibrary(scheme, dir, false, jvm, env) == Saved(CreateDirectoryIfAbsent(env, dir), Success(Destination(scheme, dir)))
    ensures SaveLibrary(scheme, dir, false, jvm.(resources := resources), env) == SaveLibrary(scheme, dir, false, jvm, env)
  {
  }

  /**
   * Extraction path with a fresh temporary name: the destination holds exactly
   * the resource bytes, replacing any previous content, the temporary file is
   * gone and every other file is unchanged.
   */
  lemma SaveLibraryExtracts(scheme: NamingScheme, dir: Path, deleteOnExit: bool, jvm: Jvm, env: Env)
    requires NamesDetermined(scheme)
    requires !TakesFastPath(scheme, dir, deleteOnExit, env)
    requires scheme.determineName(true, false).value in jvm.resources
    requires dir !in env.files
    requires Destination(scheme, dir) !in env.dirs
    requires var tmp := TempFile(jvm, dir, CreateDirectoryIfAbsent(env, dir));
             tmp !in env.files && tmp !in env.dirs && tmp != Destination(scheme, dir)
    ensures var s := SaveLibrary(scheme, dir, deleteOnExit, jvm, env);
            var file := Destination(scheme, dir);
            && s.result == Success(file)
            && s.env.files == env.files[file := jvm.resources[scheme.determineName(true, false).value]]
            && s.env.dirs == env.dirs + {dir}
            && s.env.exitHooks == if deleteOnExit then env.exitHooks + {file} else env.exitHooks
  {
  }

  /**
   * A missing resource raises an IOException before any output stream is
   * opened: no file changes, at most the directory has been created.
   */
  lemma SaveLibraryMissingResource(scheme: NamingScheme, dir: Path, deleteOnExit: bool, jvm: Jvm, env: Env)
    requires NamesDetermined(scheme)
    requires !TakesFastPath(scheme, dir, deleteOnExit, env)
    requires scheme.determineName(true, false).value !in jvm.resources
    ensures var s := SaveLibrary(scheme, dir, deleteOnExit, jvm, env);
            && s.result.Failure? && s.result.error.IOException?
            && s.env == CreateDirectoryIfAbsent(env, dir)
  {
  }

  /**
   * Extracting twice into a fixed directory: the second call finds the first
   * call's file and returns it without touching the filesystem or the store.
   */
  lemma SaveLibraryFixedIdempotent(scheme: NamingScheme, dir: Path, jvm: Jvm, env: Env, resources: map<string, Bytes>)
    requires SaveLibrary(scheme, dir, false, jvm, env).result.Success?
    ensures var first := SaveLibrary(scheme, dir, false, jvm, env);
            && SaveLibrary(scheme, dir, false, jvm.(resources := resources), first.env) == first
  {
  }

  // ---------------------------------------------------------------------------
  // Loading

  /** One loader whose `load()` was invoked, and how it ended. */
  datatype Attempt = Attempt(loader: Loader, outcome: Outcome)

  /** The state after `load()`, its outcome, and the non-fallback loaders invoked, in order. */
  datatype Run = Run(env: Env, outcome: Outcome, attempts: seq<Attempt>)

  /** `System.load(saveLibrary(dir, deleteOnExit))`; a failure of `saveLibrary` is thrown as is. */
  function LoadExtracted(scheme: NamingScheme, dir: Path, deleteOnExit: bool, jvm: Jvm, env: Env): (r: (Env, Outcome))
    ensures var s := SaveLibrary(scheme, dir, deleteOnExit, jvm, env);
            && r.0 == s.env
            && (s.result.Failure? ==> r.1 == Threw(Exc(s.result.error)))
            && (s.result.Success? ==> r.1 == jvm.loadFile(s.result.value, Content(s.env, s.result.value)))
  {
    var s := SaveLibrary(scheme, dir, deleteOnExit, jvm, env);
    match s.result
    case Failure(e) => (s.env, Threw(Exc(e)))
    case Success(file) => (s.env, jvm.loadFile(file, Content(s.env, file)))
  }

  /** `createTempDirectory(prefix)`: a new directory, registered for deletion on exit. */
  function CreateTempDirectory(jvm: Jvm, prefix: string, env: Env): (r: (Path, Env))
    ensures r.0 == jvm.tempDirectory(prefix, env)
    ensures r.1.files == env.files
    ensures r.1.dirs == env.dirs + {r.0} && r.1.exitHooks == env.exitHooks + {r.0}
  {
    var dir := jvm.tempDirectory(prefix, env);
    (dir, env.(dirs := env.dirs + {dir}, exitHooks := env.exitHooks + {dir}))
  }

  /**
   * `load()`. A fallback invokes its first loader and, only if that throws an
   * Exception, its second one; an Error propagates untouched.
   *
   * The attempts are a prefix of the leaves, each tried at most once and in
   * order; every attempt but the last threw an Exception; the outcome is the
   * last attempt's; and stopping before the last leaf means the last attempt
   * did not throw an Exception.
   */
  function Load(l: Loader, jvm: Jvm, env: Env): (run: Run)
    ensures 1 <= |run.attempts| <= |Leaves(l)|
    ensures forall i :: 0 <= i < |run.attempts| ==> run.attempts[i].loader == Leaves(l)[i]
    ensures run.outcome == run.attempts[|run.attempts| - 1].outcome
    ensures forall i :: 0 <= i < |run.attempts| - 1 ==> run.attempts[i].outcome.IsException()
    ensures |run.attempts| < |Leaves(l)| ==> !run.outcome.IsException()
    decreases l
  {
    match l
    case System(name) =>
      var o := jvm.loadLibrary(name);
      Run(env, o, [Attempt(l, o)])
    case File(path) =>
      var o := jvm.loadFile(path, Content(env, path));
      Run(env, o, [Attempt(l, o)])
    case Resource(scheme, _, dir, deleteOnExit) =>
      var (env', o) := LoadExtracted(scheme, dir, deleteOnExit, jvm, env);
      Run(env', o, [Attempt(l, o)])
    case TempDirResource(scheme, name) =>
      var (dir, env1) := CreateTempDirectory(jvm, name, env);
      var (env', o) := LoadExtracted(scheme, dir, true, jvm, env1);
      Run(env', o, [Attempt(l, o)])
    case Fallback(first, second) =>
      var r1 := Load(first, jvm, env);
      if r1.outcome.IsException() then
        var r2 := Load(second, jvm, r1.env);
        Run(r2.env, r2.outcome, r1.attempts + r2.attempts)
      else
        r1
  }

  // ---------------------------------------------------------------------------
  // The loaders the factory builds

  /** `systemLoader()`: loads the scheme's library from the search path and touches no file. */
  function SystemLoader(f: Factory): (l: Loader)
    ensures forall jvm, env :: Load(l, jvm, env).outcome == jvm.loadLibrary(f.namingScheme.libraryName)
                               && Load(l, jvm, env).env == env
  {
    SystemLoaderFor(f.namingScheme.libraryName)
  }

  /** `systemLoader(libraryName)`. */
  function SystemLoaderFor(libraryName: string): (l: Loader)
    ensures forall jvm, env :: Load(l, jvm, env).outcome == jvm.loadLibrary(libraryName) && Load(l, jvm, env).env == env
  {
    System(libraryName)
  }

  /** `fileLoader(path)`: hands the file at `path` to the linker and touches no file. */
  function FileLoader(path: Path): (l: Loader)
    ensures forall jvm, env :: Load(l, jvm, env).outcome == jvm.loadFile(path, Content(env, path)) && Load(l, jvm, env).env == env
  {
    File(path)
  }

  /** The private `resourceLoader(libraryName, dir, deleteOnExit)`: extract, then load the extracted file. */
  function ResourceLoaderFor(f: Factory, libraryName: string, dir: Path, deleteOnExit: bool): (l: Loader)
    ensures forall jvm, env :: && Load(l, jvm, env).env == SaveLibrary(f.namingScheme, dir, deleteOnExit, jvm, env).env
                               && Load(l, jvm, env).outcome == LoadExtracted(f.namingScheme, dir, deleteOnExit, jvm, env).1
  {
    Resource(f.namingScheme, libraryName, dir, deleteOnExit)
  }

  /** `resourceLoader(dir, deleteOnExit)`. */
  function ResourceLoader(f: Factory, dir: Path, deleteOnExit: bool): (l: Loader)
    ensures forall jvm, env :: && Load(l, jvm, env).env == SaveLibrary(f.namingScheme, dir, deleteOnExit, jvm, env).env
                               && Load(l, jvm, env).outcome == LoadExtracted(f.namingScheme, dir, deleteOnExit, jvm, env).1
  {
    ResourceLoaderFor(f, f.namingScheme.libraryName, dir, deleteOnExit)
  }

  /** `resourceLoaderFixedDirectory(dir)`: extraction that reuses an existing file. */
  function ResourceLoaderFixedDirectory(f: Factory, dir: Path): (l: Loader)
    ensures forall jvm, env :: && Load(l, jvm, env).env == SaveLibrary(f.namingScheme, dir, false, jvm, env).env
                               && Load(l, jvm, env).outcome == LoadExtracted(f.namingScheme, dir, false, jvm, env).1
  {
    ResourceLoader(f, dir, false)
  }

  /** `resourceLoaderTempDirectory(libraryName)`: a new temporary directory on every `load()`. */
  function ResourceLoaderTempDirectoryFor(f: Factory, libraryName: string): (l: Loader)
    ensures forall jvm, env :: var (dir, env1) := CreateTempDirectory(jvm, libraryName, env);
                               && Load(l, jvm, env).env == SaveLibrary(f.namingScheme, dir, true, jvm, env1).env
                               && Load(l, jvm, env).outcome == LoadExtracted(f.namingScheme, dir, true, jvm, env1).1
  {
    TempDirResource(f.namingScheme, libraryName)
  }

  /** `resourceLoaderTempDirectory()`. */
  function ResourceLoaderTempDirectory(f: Factory): (l: Loader)
    ensures forall jvm, env :: var (dir, env1) := CreateTempDirectory(jvm, f.namingScheme.libraryName, env);
                               && Load(l, jvm, env).env == SaveLibrary(f.namingScheme, dir, true, jvm, env1).env
                               && Load(l, jvm, env).outcome == LoadExtracted(f.namingScheme, dir, true, jvm, env1).1
  {
    ResourceLoaderTempDirectoryFor(f, f.namingScheme.libraryName)
  }

  /**
   * The library name given to a resource loader is only a label: what is
   * extracted and loaded depends on the naming scheme alone.
   */
  lemma ResourceLibraryNameIsOnlyALabel(f: Factory, name1: string, name2: string, dir: Path, deleteOnExit: bool, jvm: Jvm, env: Env)
    ensures Load(ResourceLoaderFor(f, name1, dir, deleteOnExit), jvm, env).env
            == Load(ResourceLoaderFor(f, name2, dir, deleteOnExit), jvm, env).env
    ensures Load(ResourceLoaderFor(f, name1, dir, deleteOnExit), jvm, env).outcome
            == Load(ResourceLoaderFor(f, name2, dir, deleteOnExit), jvm, env).outcome
  {
  }

  /**
   * A temporary-directory loader always extracts: the linker receives exactly
   * the resource bytes, even if the destination name is already taken, provided
   * the new directory and the temporary name are fresh.
   */
  lemma TempDirectoryLoaderAlwaysExtracts(f: Factory, name: string, jvm: Jvm, env: Env)
    requires NamesDetermined(f.namingScheme)
    requires f.namingScheme.determineName(true, false).value in jvm.resources
    requires var dir := jvm.tempDirectory(name, env);
             var env1 := CreateTempDirectory(jvm, name, env).1;
             var tmp := TempFile(jvm, dir, env1);
             && dir !in env.files
             && Destination(f.namingScheme, dir) !in env.dirs
             && tmp !in env.files && tmp !in env1.dirs && tmp != Destination(f.namingScheme, dir)
    ensures var dir := jvm.tempDirectory(name, env);
            var bytes := f.namingScheme.determineName(true, false).value;
            && Load(ResourceLoaderTempDirectoryFor(f, name), jvm, env).outcome
               == jvm.loadFile(Destination(f.namingScheme, dir), Some(jvm.resources[bytes]))
  {
  }
}

=== FILE: wrappers.dfy ===
/** Option and Result: Java's nullable references and thrown exceptions, as values. */
module Wrappers {

  /** A Java reference that may be null. */
  datatype Option<+T> = None | Some(value: T)

  /** Either a normal return or an exceptional one; usable with `:-`. */
  datatype Result<+T, +E> = Success(value: T) | Failure(error: E) {

    predicate IsFailure() {
      Failure?
    }

    function PropagateFailure<U>(): Result<U, E>
      requires Failure?
    {
      Failure(error)
    }

    function Extract(): T
      requires Success?
    {
      value
    }
  }
}
